=== FILE: README.md ===
# Live auction engine — a Dafny model

This project models the server-side core of a live-auction service. The core has four parts:

- **Item registry** (`backend/auctionStore.js`): a fixed, in-memory table of three lots. Each lot has an id, a title, a starting price, a current bid, a highest bidder, an end time and a break start time.
- **Bid handler** (`BID_PLACED` in `backend/socket.js`): validates one inbound bid and looks up its lot. It then rejects the bid as ended, as a duplicate self-bid or as too low, or it accepts it. Exactly one reply is emitted.
- **Lifecycle sweep** (the one-second `setInterval` in `backend/server.js`): ends a lot's round by starting a break. Once the break has lasted `BREAK_DURATION` (one minute), it starts a fresh round.
- **Countdown formatting** (`formatCountdown` in `frontend/src/lib/time.js`): renders remaining milliseconds as `m:ss`.

The model is purely functional:

- A table is a `seq<Item>`. Every store operation returns the new table.
- Lookups act on the first item with a matching id, as `Array.prototype.find` does.
- Server time `now` is a parameter.
- Emitted socket messages are returned as values: `BidArbiter.Reply` and `Lifecycle.Event`.
- Inbound payload fields are JavaScript values (`JsValues.JsValue`, with `NaN` and the infinities), so the handler's validation and its `===` comparisons follow the code.
- Amounts are exact reals. Timestamps are integers of milliseconds.

Modules:

- `Options`, `JsValues`: the option type and the JavaScript values the core reads.
- `AuctionStore`: items, the initial table, `getById`, `setItemBreakStartTime`, `resetItem`, `reset`.
- `BidArbiter`: the `BID_PLACED` handler.
- `Lifecycle`: the sweep, written as the code iterates. It is proved equal to a per-lot transition `Step`.
- `AuctionEngine`: the engine as a state machine. It proves the table invariant over every reachable state, plus ordering and no-lost-update properties of bids.
- `Countdown`: `formatCountdown`, its inverse parser, and the placeholder finding below.

Four places where the code behaves differently from what one might expect of it; the model follows the code:

- **A recorded bidder and a raised bid.** One would expect a lot to have a highest bidder exactly when its current bid is above the starting price. Only the "only if" direction holds. The default `bidderId = socket.id` replaces only an `undefined` field, so a payload carrying `bidderId: null` wins with a `null` bidder. `AuctionEngine.NullBidderCanWin` exhibits this. The invariant `AuctionEngine.ItemInv` states the direction that holds.
- **`resetItem(id, now)`.** The code's `resetItem` takes no time argument and reads `Date.now()` itself. The model passes the sweep's `now`.
- **"Is the break start set?"** The code tests this by JavaScript truthiness, so a break start of `0` counts as unset (`AuctionStore.OnBreak`).
- **Duplicate self-bid.** The check is `===`. A bidder id that is an object never equals the stored one, so such a bid falls through to the "too low" rule.

## Model

| member | source | states |
|---|---|---|
| AuctionStore.InitialItems | backend/auctionStore.js:20-55 | the start-up table has three lots with distinct ids; each is fresh (current bid = starting price, no bidder, no break) and ends after the load time; each equals a fresh round started at the load time |
| AuctionStore.RoundDuration | backend/auctionStore.js:118-124 | `item-1` rounds last 60 s, `item-2` rounds 90 s, and any other id (`item-3` included) gets 120 s, the configured 2 minutes and the default alike |
| AuctionStore.FindIndex | backend/auctionStore.js:78-80 | a found index holds the first item with the id; "not found" means no item carries the id |
| AuctionStore.GetById | backend/auctionStore.js:78-80 | `getById` finds nothing exactly when no item has the id, and otherwise returns the first such item |
| AuctionStore.SetItemBreakStartTime | backend/auctionStore.js:102-107 | only the first item with the id gets the break start; every other item is unchanged; an unknown id leaves the table as it is |
| AuctionStore.ResetItem | backend/auctionStore.js:109-127 | the first item with the id keeps its identity and gets current bid = starting price, no bidder, no break, and an end time one round length after `now`; the returned item is the stored one; nothing else changes; an unknown id changes nothing and returns nothing |
| AuctionStore.ResetItemIdempotent | backend/auctionStore.js:113-124 | resetting a lot twice at the same time gives the same table and item as resetting it once |
| AuctionStore.ResetRestartsEveryItem | backend/auctionStore.js:89-95 | `reset` on a table with distinct ids starts a fresh round of every lot |
| AuctionStore.ResetEachRestartsListed | backend/auctionStore.js:91-93 | on a table with distinct ids, resetting a list of ids in turn restarts exactly the lots whose ids are listed and leaves the others alone |
| BidArbiter.AcceptedBidRecordsBidder | backend/socket.js:57-117 | an accepted bid records, on its lot and in the broadcast, the connection id when the payload's `bidderId` is `undefined` and the payload's value (`null` included) otherwise; `undefined` is never recorded |
| BidArbiter.Reply.EventName | backend/socket.js:50-123 | a reply goes out as `UPDATE_BID` iff the bid was accepted, as `OUTBID` iff it was too low, and as `BID_ERROR` for every other rejection |
| BidArbiter.Reply.Reason | backend/socket.js:50-99 | each rejection carries its own `reason`: `invalid_payload`, `item_not_found`, `auction_ended`, `duplicate_bid`, `bid_too_low`, each iff the matching rejection |
| BidArbiter.Decide | backend/socket.js:69-107 | the four outcomes for a found lot are exclusive and exhaustive: ended iff `now >= endTime`; duplicate iff open, amount equals the current bid and the bidder is `===` the holder; too low iff open, amount at most the current bid and not a duplicate; accept iff open and strictly higher |
| BidArbiter.PlaceBid | backend/socket.js:39-124 | a bad payload gets `invalid_payload`; an unknown lot gets `item_not_found`; a found lot gets the first matching rule in the order ended, duplicate, too low, accept; only an accepted bid changes the table, setting current bid and bidder of that lot together and broadcasting the new values with the end time |
| BidArbiter.AcceptedExactlyWhenOpenAndHigher | backend/socket.js:97-123 | a bid is accepted iff the payload is valid, names an existing lot that is still open, and strictly beats its current bid; acceptance raises the current bid and leaves end time and break untouched |
| Lifecycle.Step | backend/server.js:45-77 | per lot: a break starts iff the lot has ended and is not on break, and then only the break start changes; a restart happens iff the break has lasted `BREAK_DURATION`; a restart gives a fresh round ending in the future and emits its values with a null bidder; otherwise nothing changes and nothing is emitted |
| Lifecycle.StepAll | backend/server.js:45-77 | the per-lot reference sweep keeps the table length, applies `Step` to every lot, and emits no more events than there are lots |
| Lifecycle.StepAllEmitsStepEvents | backend/server.js:52-75 | the events of the per-lot sweep, and so by `SweepIsPerItem` those a tick broadcasts, are exactly the lots' own `Step` events: each comes from some lot, and every lot that starts a break or restarts has its event there |
| Lifecycle.StepAllEventsDistinct | backend/server.js:52-75 | on a table with distinct ids, no event of a tick appears twice, so together with `StepAllEmitsStepEvents` each transitioning lot is announced exactly once |
| Lifecycle.SweepFrom | backend/server.js:45-77 | the sweep as written, through the store's id-based calls, keeps the table length and every lot's id |
| Lifecycle.SweepIterationIsStep | backend/server.js:47-75 | with distinct ids, one iteration of the sweep changes only the lot it visits, exactly as `Step` does |
| Lifecycle.SweepIsPerItem | backend/server.js:40-78 | with distinct ids, a sweep tick is `Step` applied to each lot on its own; no lot is changed through another |
| Lifecycle.BreakThenRestart | backend/server.js:47-75 | an ended lot enters its break at the first sweep, provided that sweep is not at time 0; a sweep at least `BREAK_DURATION` later starts a fresh round that ends in the future and is not on break. A break started at time 0 reads as unset under the truthiness tests at server.js lines 47 and 61, so the next sweep starts the break again instead of restarting |
| AuctionEngine.InitialItemsSatisfyInv | backend/auctionStore.js:27-55 | the start-up table satisfies the invariant: distinct ids, current bid at least the starting price, a recorded bidder only above it, a break only between end time and now |
| AuctionEngine.PlaceBidPreservesInv | backend/socket.js:39-124 | any bid, accepted or rejected, keeps the invariant as the clock advances |
| AuctionEngine.SweepPreservesInv | backend/server.js:40-78 | a sweep tick keeps the invariant as the clock advances |
| AuctionEngine.RunPreservesInv | backend/server.js:40-78 | any interleaving of bids and sweep ticks with a non-decreasing clock keeps the invariant |
| AuctionEngine.ReachableStatesSatisfyInv | backend/socket.js:39-124 | every table reachable from start-up by bids and ticks satisfies the invariant |
| AuctionEngine.BreakBlocksBids | backend/socket.js:70-80 | a lot on break rejects every valid bid as `auction_ended`, whatever the amount, and the table is unchanged |
| AuctionEngine.RestartReopensBidding | backend/server.js:61-75 | after a restart the lot is open again, and a bid is accepted there iff it beats the starting price |
| AuctionEngine.BidTouchesOnlyItsLot | backend/socket.js:109-123 | an accepted bid changes only the named lot, raising its current bid and recording its bidder; `getById` sees every other lot unchanged |
| AuctionEngine.AcceptedBidsStrictlyIncrease | backend/socket.js:96-112 | over any sequence of bids, the prices accepted for one lot strictly increase and all exceed its current bid at the start |
| AuctionEngine.NoLostUpdate | backend/socket.js:96-112 | two open bids `a1 < a2` above the current bid leave the same table in either arrival order: `a2` and its bidder win, and `a1` arriving second is told it is too low |
| AuctionEngine.EqualBidsAcceptOnlyOne | backend/socket.js:85-107 | of two equal winning bids from different bidders, the first is accepted and the second is rejected as too low without changing the table |
| AuctionEngine.NullBidderCanWin | backend/socket.js:57 | an accepted bid with an explicit `null` bidder leaves a current bid above the starting price and no recorded bidder |
| Countdown.Decimal | frontend/src/lib/time.js:9 | `String(n)` of a whole number is a non-empty digit string with no leading zero, one digit iff `n < 10`, at most two below 100 |
| Countdown.DecimalRoundTrip | frontend/src/lib/time.js:9 | the digits of `String(n)` read back as `n` |
| Countdown.PadStart | frontend/src/lib/time.js:9 | `padStart` reaches the width, keeps the string as its suffix, and fills the rest with the fill character |
| Countdown.SecondsFieldIsPadded | frontend/src/lib/time.js:9 | the two-character seconds field is `String(seconds).padStart(2, '0')` |
| Countdown.SecondsFieldRoundTrip | frontend/src/lib/time.js:9 | the padded seconds field reads back as the seconds value |
| Countdown.ClockOf | frontend/src/lib/time.js:5-7 | seconds are below 60, and the whole seconds shown are the fewest covering the remaining time: `(total - 1) * 1000 < ms <= total * 1000` |
| Countdown.FormatClock | frontend/src/lib/time.js:9 | the output is digits, a colon and exactly two digits, with no leading zero in the minutes unless the minutes are 0 |
| Countdown.FormatCountdown | frontend/src/lib/time.js:1-10 | a non-number or `NaN` shows the placeholder; zero, negative time or `-Infinity` shows `Ended`; `Infinity` shows `Infinity:NaN`; positive finite time shows `m:ss` with no leading zero in the minutes unless the minutes are 0 |
| Countdown.LastSecondShowsOne | frontend/src/lib/time.js:5-9 | any remaining time in (0, 1000] ms shows `0:01`, never `0:00`, under exact division (see "## Left out" for subnormal doubles) |
| Countdown.FormatCountdownRoundTrip | frontend/src/lib/time.js:5-9 | parsing the text of a positive countdown gives back exactly the minutes and seconds computed from the input |
| Countdown.FormatCountdownAsWritten | frontend/src/lib/time.js:2 | the function as the file has it differs from the intended one exactly on the inputs that show a placeholder; there it returns the three-character mis-decoded string instead of the one-character dash |
| Countdown.PlaceholderIsMisdecoded | frontend/src/lib/time.js:2 | the file's placeholder is the em dash's three UTF-8 bytes read as Windows-1252, so `NaN` and `undefined` render differently from the intended single dash |

## Left out

- Transport. `socket.emit`, `io.emit` and the message texts are not modelled. The model returns the reply or event, with its event name and `reason`.
- Clocks and timers. `Date.now()` and `setInterval` are replaced by the `now` parameter.
- AuctionEngine.BreakBlocksBids: assumes the server clock never goes backwards (`before <= now`). `Date.now()` is a wall clock and can step back. If it steps back below a lot's `endTime` while the lot is on break, the check at socket.js line 71 passes and a bid is accepted during the break.
- AuctionEngine.PlaceBidPreservesInv: assumes the same non-decreasing clock (`before <= now`).
- AuctionEngine.SweepPreservesInv: assumes the same non-decreasing clock (`before <= now`).
- AuctionEngine.RunPreservesInv: assumes the same non-decreasing clock along the trace (`Chronological`).
- AuctionEngine.ReachableStatesSatisfyInv: assumes the same non-decreasing clock along the trace (`Chronological`), starting at the load time.
- AuctionStore.ResetItem: uses the caller's `now` instead of its own `Date.now()` read. In the code, `reset` reads the clock again for each lot, while the model uses one time for the whole table.
- Floating point. Amounts and durations are exact reals, and `minutes * 60 * 1000` is taken as a whole number of milliseconds. Rounding of fractional bids and of large timestamps is not modelled.
- Countdown.FormatCountdown: divides exact reals, where `msRemaining / 1000` at time.js line 5 is a double division. A positive input below about 2.47e-321 (for example `5e-324`) underflows to 0 there, so the code shows `0:00` where the model shows `0:01`. Callers pass whole milliseconds, which never underflow.
- Countdown.ClockOf: the covering bound holds for exact division only; for subnormal inputs see the line above, and for very large ones double rounding is not modelled.
- Countdown.LastSecondShowsOne: does not hold in the code for subnormal doubles, as stated for `Countdown.FormatCountdown` above.
- Countdown.Decimal: models `String(n)` as plain decimal digits. JavaScript switches to exponent notation from 1e21 minutes up.
- AuctionStore.RoundDuration: ignores the keys a plain object inherits from `Object.prototype`. With those, `durationMap["constructor"]` would make the end time `NaN`. The lot ids in use are not such keys.
- `getAll`, the `items` export and `getBreakStatus` are not modelled. They only expose the table or return a constant.
- `BREAK_DURATION` is `AuctionStore.BreakDuration`. The sweep's one-second interval is not modelled, because each tick is a `Tick` action at an arbitrary later time.
- Connection handling, `disconnect` logging and the `receivedAt` timestamp of the handler are not modelled. They do not affect any decision.
- The second `auctionStore.js` at the repository root, the HTTP routes of `backend/app.js` and the frontend components are outside the core.
- Payloads that are not objects are not distinguished from one another. Any falsy or non-object payload is `None`, and all of them fail validation alike.

## Findings

| source | as written | input that shows it | evidently intended | confidence | as-written member | corrected member |
|---|---|---|---|---|---|---|
| frontend/src/lib/time.js:2 | the placeholder literal is the three characters U+00E2 U+20AC U+201D (`â€”`), which are the UTF-8 bytes of an em dash decoded as Windows-1252 | `formatCountdown(NaN)` or `formatCountdown(undefined)` returns `â€”` | a single em dash, U+2014 | medium, not executed | Countdown.FormatCountdownAsWritten | Countdown.FormatCountdown |

=== FILE: auction_engine.dfy ===
/**
 * The auction engine as a state machine: the item table is the state, and
 * the two atomic steps are one bid (`PlaceBid`) and one sweep tick
 * (`Sweep`), each taken at a server time no earlier than the last.
 */
module AuctionEngine {
  import opened Options
  import opened JsValues
  import opened AuctionStore
  import opened BidArbiter
  import opened Lifecycle

  /** What every lot satisfies once the server clock reads `now`: the current
      bid never drops below the starting price, a recorded bidder means a bid
      above it was accepted, and a break starts no earlier than the lot's end
      and no later than the present. */
  predicate ItemInv(item: Item, now: int)
  {
    && item.currentBid >= item.startingPrice
    && (item.highestBidder != Null ==> item.currentBid > item.startingPrice)
    && (item.breakStartTime.Some? ==> item.endTime <= item.breakStartTime.value <= now)
  }

  predicate Inv(items: seq<Item>, now: int)
  {
    UniqueIds(items) && forall k | 0 <= k < |items| :: ItemInv(items[k], now)
  }

  lemma InitialItemsSatisfyInv(loadTime: int)
    ensures Inv(InitialItems(loadTime), loadTime)
  {
  }

  /** A bid, accepted or not, keeps the invariant. */
  lemma PlaceBidPreservesInv(items: seq<Item>, payload: Option<BidPayload>, connectionId: string, before: int, now: int)
    requires Inv(items, before) && before <= now
    ensures Inv(PlaceBid(items, payload, connectionId, now).items, now)
  {
    var r := PlaceBid(items, payload, connectionId, now);
    if r.reply.BidAccepted? {
      AcceptedExactlyWhenOpenAndHigher(items, payload, connectionId, now);
      var k :| IsFirstWithId(items, k, payload.value.itemId.s)
        && now < items[k].endTime && payload.value.amount.n.value > items[k].currentBid;
      assert r.items == items[k := r.items[k]];
    }
  }

  /** A sweep tick keeps the invariant. */
  lemma SweepPreservesInv(items: seq<Item>, before: int, now: int)
    requires Inv(items, before) && before <= now
    ensures Inv(Sweep(items, now).items, now)
  {
    SweepIsPerItem(items, now);
  }

  /** An inbound event of the engine. */
  datatype Action = Bid(payload: Option<BidPayload>, connectionId: string) | Tick

  /** An action and the server time at which it runs. */
  datatype TimedAction = TimedAction(action: Action, at: int)

  function Apply(items: seq<Item>, t: TimedAction): seq<Item>
  {
    match t.action
    case Bid(payload, connectionId) => PlaceBid(items, payload, connectionId, t.at).items
    case Tick => Sweep(items, t.at).items
  }

  /** The table after running `trace` in order. */
  function Run(items: seq<Item>, trace: seq<TimedAction>): seq<Item>
    decreases |trace|
  {
    if |trace| == 0 then items else Run(Apply(items, trace[0]), trace[1..])
  }

  /** The server clock never runs backwards along the trace, starting at `from`. */
  predicate Chronological(trace: seq<TimedAction>, from: int)
  {
    && (forall i | 0 <= i < |trace| :: from <= trace[i].at)
    && (forall i, j | 0 <= i < j < |trace| :: trace[i].at <= trace[j].at)
  }

  function LastTime(trace: seq<TimedAction>, from: int): int
  {
    if |trace| == 0 then from else trace[|trace| - 1].at
  }

  lemma {:induction false} RunPreservesInv(items: seq<Item>, from: int, trace: seq<TimedAction>)
    requires Inv(items, from) && Chronological(trace, from)
    ensures Inv(Run(items, trace), LastTime(trace, from))
    decreases |trace|
  {
    if |trace| > 0 {
      var t := trace[0];
      match t.action {
        case Bid(payload, connectionId) => PlaceBidPreservesInv(items, payload, connectionId, from, t.at);
        case Tick => SweepPreservesInv(items, from, t.at);
      }
      assert Chronological(trace[1..], t.at);
      RunPreservesInv(Apply(items, t), t.at, trace[1..]);
      assert LastTime(trace[1..], t.at) == LastTime(trace, from);
    }
  }

  /** Every table the server can reach from its start-up table satisfies the
      invariant. */
  lemma ReachableStatesSatisfyInv(loadTime: int, trace: seq<TimedAction>)
    requires Chronological(trace, loadTime)
    ensures Inv(Run(InitialItems(loadTime), trace), LastTime(trace, loadTime))
  {
    InitialItemsSatisfyInv(loadTime);
    RunPreservesInv(InitialItems(loadTime), loadTime, trace);
  }

  /** A lot on break rejects every bid as ended, whatever the amount, and the
      table is left as it was. */
  lemma BreakBlocksBids(items: seq<Item>, payload: Option<BidPayload>, connectionId: string, k: int, before: int, now: int)
    requires Inv(items, before) && before <= now
    requires ValidPayload(payload) && IsFirstWithId(items, k, payload.value.itemId.s)
    requires items[k].breakStartTime.Some?
    ensures PlaceBid(items, payload, connectionId, now) ==
      BidResult(items, AuctionEnded(payload.value.itemId.s, now, items[k].endTime))
  {
  }

  /** After a restart the lot is open again: not on break, ending in the
      future, and a bid is accepted exactly when it beats the starting price. */
  lemma RestartReopensBidding(item: Item, now: int, amount: real, bidder: JsValue)
    requires BreakElapsed(item, now)
    ensures !OnBreak(Step(item, now).item) && Step(item, now).item.endTime > now
    ensures Decide(Step(item, now).item, amount, bidder, now) == Accept <==> amount > item.startingPrice
  {
  }

  /** A bid changes at most the lot it names: `getById` for any other id sees
      the same item, and for the named lot it sees the accepted amount and
      bidder, the amount being strictly above the previous current bid. */
  lemma BidTouchesOnlyItsLot(items: seq<Item>, payload: Option<BidPayload>, connectionId: string, now: int, id: string)
    ensures var r := PlaceBid(items, payload, connectionId, now);
      r.reply.BidAccepted? && r.reply.itemId == id ==>
        && GetById(items, id).Some?
        && r.reply.currentBid > GetById(items, id).value.currentBid
        && GetById(r.items, id) ==
             Some(GetById(items, id).value.(currentBid := r.reply.currentBid, highestBidder := r.reply.highestBidder))
    ensures var r := PlaceBid(items, payload, connectionId, now);
      !(r.reply.BidAccepted? && r.reply.itemId == id) ==> GetById(r.items, id) == GetById(items, id)
  {
    var r := PlaceBid(items, payload, connectionId, now);
    if r.reply.BidAccepted? {
      AcceptedExactlyWhenOpenAndHigher(items, payload, connectionId, now);
      var target := payload.value.itemId.s;
      var k :| IsFirstWithId(items, k, target)
        && now < items[k].endTime && payload.value.amount.n.value > items[k].currentBid;
      assert r.items == items[k := r.items[k]];
      if target == id {
        assert IsFirstWithId(r.items, k, id);
      } else {
        match FindIndex(items, id)
        case None =>
          assert !HasId(r.items, id);
        case Some(j) =>
          assert j != k;
          assert IsFirstWithId(r.items, j, id);
      }
    }
  }

  /** One bid with the server time it is decided at. */
  datatype BidCall = BidCall(payload: Option<BidPayload>, connectionId: string, at: int)

  datatype BidRun = BidRun(items: seq<Item>, replies: seq<Reply>)

  /** A sequence of bids handled one after the other. */
  function RunBids(items: seq<Item>, calls: seq<BidCall>): (r: BidRun)
    ensures |r.replies| == |calls|
    decreases |calls|
  {
    if |calls| == 0 then BidRun(items, [])
    else
      var first := PlaceBid(items, calls[0].payload, calls[0].connectionId, calls[0].at);
      var rest := RunBids(first.items, calls[1..]);
      BidRun(rest.items, [first.reply] + rest.replies)
  }

  /** The current bids announced by the accepted bids on lot `id`, in order. */
  function AcceptedPrices(replies: seq<Reply>, id: string): seq<real>
    decreases |replies|
  {
    if |replies| == 0 then []
    else
      var head := if replies[0].BidAccepted? && replies[0].itemId == id then [replies[0].currentBid] else [];
      head + AcceptedPrices(replies[1..], id)
  }

  predicate StrictlyIncreasing(s: seq<real>)
  {
    forall i, j | 0 <= i < j < |s| :: s[i] < s[j]
  }

  /** Every price is above the current bid of `lot`, which exists. */
  predicate AllAbove(lot: Option<Item>, prices: seq<real>)
  {
    forall i | 0 <= i < |prices| :: lot.Some? && lot.value.currentBid < prices[i]
  }

  /** Between restarts, the prices announced for one lot strictly increase,
      and each is above the lot's current bid when the run began: no accepted
      bid is ever lost or undercut. */
  lemma {:induction false} AcceptedBidsStrictlyIncrease(items: seq<Item>, calls: seq<BidCall>, id: string)
    ensures StrictlyIncreasing(AcceptedPrices(RunBids(items, calls).replies, id))
    ensures AllAbove(GetById(items, id), AcceptedPrices(RunBids(items, calls).replies, id))
    decreases |calls|
  {
    if |calls| > 0 {
      var c := calls[0];
      var first := PlaceBid(items, c.payload, c.connectionId, c.at);
      var rest := RunBids(first.items, calls[1..]);
      var later := AcceptedPrices(rest.replies, id);
      assert AcceptedPrices(RunBids(items, calls).replies, id) == AcceptedPrices([first.reply], id) + later by {
        assert RunBids(items, calls).replies == [first.reply] + rest.replies;
        AcceptedPricesAppend([first.reply], rest.replies, id);
      }
      AcceptedBidsStrictlyIncrease(first.items, calls[1..], id);
      BidTouchesOnlyItsLot(items, c.payload, c.connectionId, c.at, id);
      if first.reply.BidAccepted? && first.reply.itemId == id {
        PrependLower(GetById(items, id), GetById(first.items, id), first.reply.currentBid, later);
      } else {
        assert AcceptedPrices([first.reply], id) == [];
        assert [] + later == later;
      }
    }
  }

  lemma PrependLower(before: Option<Item>, after: Option<Item>, p: real, later: seq<real>)
    requires StrictlyIncreasing(later) && AllAbove(after, later)
    requires after.Some? && after.value.currentBid == p
    requires before.Some? && before.value.currentBid < p
    ensures StrictlyIncreasing([p] + later) && AllAbove(before, [p] + later)
  {
  }

  lemma {:induction false} AcceptedPricesAppend(a: seq<Reply>, b: seq<Reply>, id: string)
    ensures AcceptedPrices(a + b, id) == AcceptedPrices(a, id) + AcceptedPrices(b, id)
    decreases |a|
  {
    if |a| == 0 {
      assert a + b == b;
    } else {
      assert (a + b)[1..] == a[1..] + b;
      AcceptedPricesAppend(a[1..], b, id);
    }
  }

  function StringBid(id: string, amount: real, bidder: string): Option<BidPayload>
  {
    Some(BidPayload(Str(id), Num(Finite(amount)), Str(bidder)))
  }

  /** Two open-lot bids `a1 < a2` that both beat the current bid leave the
      same table whichever is handled first: the larger amount and its bidder
      win, and the smaller one is either overtaken or rejected as too low. */
  lemma NoLostUpdate(items: seq<Item>, k: int, a1: real, u1: string, c1: string, a2: real, u2: string, c2: string, now: int)
    requires 0 <= k < |items| && IsFirstWithId(items, k, items[k].id) && now < items[k].endTime
    requires items[k].currentBid < a1 < a2 && 0.0 < a1
    ensures var id := items[k].id;
      var first12 := PlaceBid(items, StringBid(id, a1, u1), c1, now);
      var first21 := PlaceBid(items, StringBid(id, a2, u2), c2, now);
      && PlaceBid(first12.items, StringBid(id, a2, u2), c2, now).items == items[k := items[k].(currentBid := a2, highestBidder := Str(u2))]
      && PlaceBid(first21.items, StringBid(id, a1, u1), c1, now).items == items[k := items[k].(currentBid := a2, highestBidder := Str(u2))]
      && PlaceBid(first21.items, StringBid(id, a1, u1), c1, now).reply.BidTooLow?
  {
    var id := items[k].id;
    var winner := items[k := items[k].(currentBid := a2, highestBidder := Str(u2))];
    var first12 := PlaceBid(items, StringBid(id, a1, u1), c1, now);
    assert first12.items == items[k := items[k].(currentBid := a1, highestBidder := Str(u1))];
    assert IsFirstWithId(first12.items, k, id);
    var second12 := PlaceBid(first12.items, StringBid(id, a2, u2), c2, now);
    assert second12.items == first12.items[k := first12.items[k].(currentBid := a2, highestBidder := Str(u2))];
    assert second12.items == winner;
    var first21 := PlaceBid(items, StringBid(id, a2, u2), c2, now);
    assert first21.items == winner;
    assert IsFirstWithId(first21.items, k, id);
    var second21 := PlaceBid(first21.items, StringBid(id, a1, u1), c1, now);
    assert second21.reply == BidTooLow(id, a1, a2, Str(u2), now);
  }

  /** Of two equal open-lot bids from different bidders that beat the current
      bid, only the first is accepted; the second is told it is too low. */
  lemma EqualBidsAcceptOnlyOne(items: seq<Item>, k: int, a: real, u1: string, c1: string, u2: string, c2: string, now: int)
    requires 0 <= k < |items| && IsFirstWithId(items, k, items[k].id) && now < items[k].endTime
    requires items[k].currentBid < a && 0.0 < a && u1 != u2
    ensures var id := items[k].id;
      var first := PlaceBid(items, StringBid(id, a, u1), c1, now);
      var second := PlaceBid(first.items, StringBid(id, a, u2), c2, now);
      && first.reply.BidAccepted?
      && second.reply == BidTooLow(id, a, a, Str(u1), now)
      && second.items == first.items
  {
    var id := items[k].id;
    var first := PlaceBid(items, StringBid(id, a, u1), c1, now);
    assert first.items == items[k := items[k].(currentBid := a, highestBidder := Str(u1))];
    assert IsFirstWithId(first.items, k, id);
    assert !StrictEquals(Str(u1), Str(u2));
  }

  /** The highest bidder may stay `null` after an accepted bid: a payload
      with an explicit `bidderId: null` bypasses the connection-id default. So
      "a bidder is recorded exactly when the current bid is above the starting
      price" holds in one direction only. */
  lemma NullBidderCanWin()
    ensures var r := PlaceBid(InitialItems(1), Some(BidPayload(Str("item-1"), Num(Finite(150.0)), Null)), "conn", 1);
      && r.reply.BidAccepted?
      && r.items[0].highestBidder == Null
      && r.items[0].currentBid > r.items[0].startingPrice
  {
    var items := InitialItems(1);
    assert IsFirstWithId(items, 0, "item-1");
  }
}

=== FILE: auction_store.dfy ===
/**
 * The item registry: a fixed, in-memory table of auction lots shared by the
 * bid handler and the lifecycle sweep (backend/auctionStore.js).
 *
 * The JavaScript store mutates item objects in place; here a table is a
 * `seq<Item>` and every operation returns the new table. Lookups by id act on
 * the FIRST item carrying that id, as `Array.prototype.find` does.
 */
module AuctionStore {
  import opened Options
  import opened JsValues

  /** Length of the pause between two rounds of a lot, in milliseconds. */
  const BreakDuration: int := 60 * 1000

  const MsPerMinute: real := 60.0 * 1000.0

  /** Round length, in minutes, of each lot of the initial table. */
  const RoundMinutes: map<string, real> := map["item-1" := 1.0, "item-2" := 1.5, "item-3" := 2.0]

  /** Round length of any id missing from `RoundMinutes`. */
  const DefaultRoundMinutes: real := 2.0

  /** One lot. `highestBidder` is `Null` until a bid is accepted;
      `breakStartTime` is `None` while the lot is not on break. */
  datatype Item = Item(
    id: string,
    title: string,
    startingPrice: real,
    currentBid: real,
    highestBidder: JsValue,
    endTime: int,
    breakStartTime: Option<int>)

  /** The sweep's `item.breakStartTime` truthiness test: a break start of 0
      reads as "not on break", like `null`. */
  predicate OnBreak(item: Item)
  {
    item.breakStartTime.Some? && item.breakStartTime.value != 0
  }

  /** `now + minutes * 60 * 1000`; every duration used here is a whole number
      of milliseconds. */
  function MinutesFrom(now: int, minutes: real): int
  {
    now + (minutes * MsPerMinute).Floor
  }

  /** Length of a fresh round of lot `id`, in milliseconds. */
  function RoundDuration(id: string): (d: int)
    ensures id == "item-1" ==> d == 60000
    ensures id == "item-2" ==> d == 90000
    ensures id != "item-1" && id != "item-2" ==> d == 120000
  {
    var minutes := if id in RoundMinutes then RoundMinutes[id] else DefaultRoundMinutes;
    MinutesFrom(0, minutes)
  }

  /** The lot as a fresh round started at `now` leaves it. */
  function FreshRound(item: Item, now: int): Item
  {
    item.(currentBid := item.startingPrice,
          highestBidder := Null,
          breakStartTime := None,
          endTime := now + RoundDuration(item.id))
  }

  predicate UniqueIds(items: seq<Item>)
  {
    forall i, j | 0 <= i < j < |items| :: items[i].id != items[j].id
  }

  /** Index `k` holds the first item whose id is `id`. */
  predicate IsFirstWithId(items: seq<Item>, k: int, id: string)
  {
    0 <= k < |items| && items[k].id == id && forall j | 0 <= j < k :: items[j].id != id
  }

  predicate HasId(items: seq<Item>, id: string)
  {
    exists j | 0 <= j < |items| :: items[j].id == id
  }

  /** The table built when the store module is loaded at `loadTime`. */
  function InitialItems(loadTime: int): (r: seq<Item>)
    ensures |r| == 3 && UniqueIds(r)
    ensures forall k | 0 <= k < |r| ::
      && r[k].currentBid == r[k].startingPrice
      && r[k].highestBidder == Null
      && r[k].breakStartTime == None
      && r[k].endTime > loadTime
    ensures forall k | 0 <= k < |r| :: r[k] == FreshRound(r[k], loadTime)
  {
    [ Item("item-1", "Vintage Watch", 100.0, 100.0, Null, MinutesFrom(loadTime, 1.0), None),
      Item("item-2", "Antique Vase", 250.0, 250.0, Null, MinutesFrom(loadTime, 1.5), None),
      Item("item-3", "Gaming Laptop", 800.0, 800.0, Null, MinutesFrom(loadTime, 2.0), None) ]
  }

  /** Position of the first item whose id is `id`. */
  function FindIndex(items: seq<Item>, id: string): (r: Option<nat>)
    ensures r.Some? ==> IsFirstWithId(items, r.value, id)
    ensures r.None? ==> forall j | 0 <= j < |items| :: items[j].id != id
    decreases |items|
  {
    if |items| == 0 then None
    else if items[0].id == id then Some(0)
    else match FindIndex(items[1..], id)
      case None => None
      case Some(k) => Some(k + 1)
  }

  /** `getById`: the first item with the given id, or "not found". */
  function GetById(items: seq<Item>, id: string): (r: Option<Item>)
    ensures r.None? <==> !HasId(items, id)
    ensures forall k | IsFirstWithId(items, k, id) :: r == Some(items[k])
  {
    match FindIndex(items, id)
    case None => None
    case Some(k) => Some(items[k])
  }

  /** `setItemBreakStartTime`: stamps the break start on the first item with
      the id; an unknown id leaves the table as it is. */
  function SetItemBreakStartTime(items: seq<Item>, id: string, time: int): (r: seq<Item>)
    ensures |r| == |items|
    ensures forall j | 0 <= j < |items| ::
      if IsFirstWithId(items, j, id) then r[j] == items[j].(breakStartTime := Some(time)) else r[j] == items[j]
    ensures !HasId(items, id) ==> r == items
  {
    match FindIndex(items, id)
    case None => items
    case Some(k) => items[k := items[k].(breakStartTime := Some(time))]
  }

  /** What `resetItem` leaves behind: the new table and the item it returns
      (`None` for `undefined`). */
  datatype ResetResult = ResetResult(items: seq<Item>, item: Option<Item>)

  /** `resetItem`: starts a fresh round of the first item with the id, at `now`. */
  function ResetItem(items: seq<Item>, id: string, now: int): (r: ResetResult)
    ensures |r.items| == |items|
    ensures forall j | 0 <= j < |items| :: r.items[j].id == items[j].id
    ensures forall j | 0 <= j < |items| && !IsFirstWithId(items, j, id) :: r.items[j] == items[j]
    ensures forall j | 0 <= j < |items| && IsFirstWithId(items, j, id) ::
      && r.items[j].title == items[j].title
      && r.items[j].startingPrice == items[j].startingPrice
      && r.items[j].currentBid == items[j].startingPrice
      && r.items[j].highestBidder == Null
      && r.items[j].breakStartTime == None
      && r.items[j].endTime == now + RoundDuration(id)
      && r.items[j].endTime > now
      && r.item == Some(r.items[j])
    ensures r.item.None? <==> !HasId(items, id)
    ensures r.item.None? ==> r.items == items
  {
    match FindIndex(items, id)
    case None => ResetResult(items, None)
    case Some(k) => ResetResult(items[k := FreshRound(items[k], now)], Some(FreshRound(items[k], now)))
  }

  function Ids(items: seq<Item>): seq<string>
  {
    seq(|items|, k requires 0 <= k < |items| => items[k].id)
  }

  /** `resetItem` applied to each id of `ids` in turn. */
  function ResetEach(items: seq<Item>, ids: seq<string>, now: int): (r: seq<Item>)
    ensures |r| == |items|
    ensures forall k | 0 <= k < |items| :: r[k].id == items[k].id
    decreases |ids|
  {
    if |ids| == 0 then items
    else ResetEach(ResetItem(items, ids[0], now).items, ids[1..], now)
  }

  /** `reset`: `resetItem` for the id of every item of the table, in order. */
  function Reset(items: seq<Item>, now: int): seq<Item>
  {
    ResetEach(items, Ids(items), now)
  }

  /** With distinct ids, the first item carrying `items[k].id` is `items[k]`. */
  lemma FirstWithIdIsItself(items: seq<Item>, k: int)
    requires UniqueIds(items) && 0 <= k < |items|
    ensures forall j | 0 <= j < |items| :: IsFirstWithId(items, j, items[k].id) <==> j == k
  {
  }

  /** Resetting twice with the same clock is the same as resetting once. */
  lemma ResetItemIdempotent(items: seq<Item>, id: string, now: int)
    ensures ResetItem(ResetItem(items, id, now).items, id, now) == ResetItem(items, id, now)
  {
    match FindIndex(items, id)
    case None =>
    case Some(k) =>
      var renewed := FreshRound(items[k], now);
      var once := items[k := renewed];
      assert ResetItem(items, id, now) == ResetResult(once, Some(renewed));
      assert IsFirstWithId(once, k, id);
      FirstIsUnique(once, k, FindIndex(once, id).value, id);
      assert FreshRound(renewed, now) == renewed;
  }

  /** At most one index is the first one carrying a given id. */
  lemma FirstIsUnique(items: seq<Item>, j: int, k: int, id: string)
    requires IsFirstWithId(items, j, id) && IsFirstWithId(items, k, id)
    ensures j == k
  {
  }

  /** Generalisation of `ResetRestartsEveryItem` to any list of ids. */
  lemma {:induction false} ResetEachRestartsListed(items: seq<Item>, ids: seq<string>, now: int)
    requires UniqueIds(items)
    ensures forall k | 0 <= k < |items| ::
      ResetEach(items, ids, now)[k] == if items[k].id in ids then FreshRound(items[k], now) else items[k]
    decreases |ids|
  {
    if |ids| > 0 {
      var next := ResetItem(items, ids[0], now).items;
      forall k | 0 <= k < |items|
        ensures next[k] == if items[k].id == ids[0] then FreshRound(items[k], now) else items[k]
      {
        FirstWithIdIsItself(items, k);
      }
      assert UniqueIds(next);
      ResetEachRestartsListed(next, ids[1..], now);
      forall k | 0 <= k < |items|
        ensures ResetEach(items, ids, now)[k] == if items[k].id in ids then FreshRound(items[k], now) else items[k]
      {
        assert items[k].id in ids <==> items[k].id == ids[0] || items[k].id in ids[1..];
      }
    }
  }

  /** `reset` starts a fresh round of every lot of a table with distinct ids. */
  lemma ResetRestartsEveryItem(items: seq<Item>, now: int)
    requires UniqueIds(items)
    ensures |Reset(items, now)| == |items|
    ensures forall k | 0 <= k < |items| :: Reset(items, now)[k] == FreshRound(items[k], now)
  {
    ResetEachRestartsListed(items, Ids(items), now);
    forall k | 0 <= k < |items| ensures items[k].id in Ids(items) {
      assert Ids(items)[k] == items[k].id;
    }
  }
}

=== FILE: bid_arbiter.dfy ===
/**
 * Bid arbitration: the `BID_PLACED` handler of backend/socket.js. One call
 * decides one bid against the registry at server time `now` and returns the
 * new table together with the single message the handler emits.
 */
module BidArbiter {
  import opened Options
  import opened JsValues
  import opened AuctionStore

  /** The fields the handler reads from an inbound payload; a missing field
      is `Undefined`. A payload that is absent, falsy or not an object has no
      such fields at all and is passed as `None`. */
  datatype BidPayload = BidPayload(itemId: JsValue, amount: JsValue, bidderId: JsValue)

  /** The message emitted for one bid. `BidAccepted` is broadcast as
      `UPDATE_BID`; every other reply goes to the sender only. */
  datatype Reply =
    | InvalidPayload
    | ItemNotFound(itemId: string)
    | AuctionEnded(itemId: string, serverTime: int, endTime: int)
    | DuplicateBid(itemId: string, attemptedBid: real, serverTime: int)
    | BidTooLow(itemId: string, attemptedBid: real, currentBid: real, highestBidder: JsValue, serverTime: int)
    | BidAccepted(itemId: string, currentBid: real, highestBidder: JsValue, serverTime: int, endTime: int)
  {
    /** The socket event name the reply is emitted under. */
    function EventName(): (e: string)
      ensures e == "UPDATE_BID" <==> BidAccepted?
      ensures e == "OUTBID" <==> BidTooLow?
      ensures e == "BID_ERROR" <==> !BidAccepted? && !BidTooLow?
    {
      match this
      case BidTooLow(_, _, _, _, _) => "OUTBID"
      case BidAccepted(_, _, _, _, _) => "UPDATE_BID"
      case _ => "BID_ERROR"
    }

    /** The `reason` field of a rejection. */
    function Reason(): (reason: string)
      requires !BidAccepted?
      ensures reason == "invalid_payload" <==> InvalidPayload?
      ensures reason == "item_not_found" <==> ItemNotFound?
      ensures reason == "auction_ended" <==> AuctionEnded?
      ensures reason == "duplicate_bid" <==> DuplicateBid?
      ensures reason == "bid_too_low" <==> BidTooLow?
    {
      match this
      case InvalidPayload => "invalid_payload"
      case ItemNotFound(_) => "item_not_found"
      case AuctionEnded(_, _, _) => "auction_ended"
      case DuplicateBid(_, _, _) => "duplicate_bid"
      case BidTooLow(_, _, _, _, _) => "bid_too_low"
    }
  }

  datatype BidResult = BidResult(items: seq<Item>, reply: Reply)

  /** The handler's first guard: an object payload whose `itemId` is a string
      and whose `amount` is a finite number above zero. */
  predicate ValidPayload(payload: Option<BidPayload>)
  {
    && payload.Some?
    && payload.value.itemId.Str?
    && payload.value.amount.Num?
    && payload.value.amount.n.Finite?
    && payload.value.amount.n.value > 0.0
  }

  /** The bidder identity: the destructuring default `bidderId = socket.id`
      only replaces an `undefined` field, so an explicit `null` is kept. */
  function BidderOf(payload: BidPayload, connectionId: string): (b: JsValue)
    ensures !b.Undefined?
  {
    if payload.bidderId.Undefined? then Str(connectionId) else payload.bidderId
  }

  /** The outcome of the time and price rules for an existing item. */
  datatype Decision = Closed | Duplicate | TooLow | Accept

  /** The rules after the item is found, first match wins: ended, duplicate
      self-bid, too low or equal, accept. */
  function Decide(item: Item, amount: real, bidder: JsValue, now: int): (d: Decision)
    ensures d == Accept <==> now < item.endTime && amount > item.currentBid
    ensures d == Closed <==> now >= item.endTime
    ensures d == Duplicate <==>
      now < item.endTime && amount == item.currentBid && StrictEquals(item.highestBidder, bidder)
    ensures d == TooLow <==>
      now < item.endTime && amount <= item.currentBid && !(amount == item.currentBid && StrictEquals(item.highestBidder, bidder))
  {
    if now >= item.endTime then Closed
    else if amount == item.currentBid && StrictEquals(item.highestBidder, bidder) then Duplicate
    else if amount <= item.currentBid then TooLow
    else Accept
  }

  /** The whole handler: validation, lookup, the rules, and the commit of
      `currentBid` and `highestBidder` together. */
  function PlaceBid(items: seq<Item>, payload: Option<BidPayload>, connectionId: string, now: int): (r: BidResult)
    ensures !ValidPayload(payload) ==> r == BidResult(items, InvalidPayload)
    ensures ValidPayload(payload) && !HasId(items, payload.value.itemId.s) ==>
      r == BidResult(items, ItemNotFound(payload.value.itemId.s))
    ensures !r.reply.BidAccepted? ==> r.items == items
    ensures ValidPayload(payload) ==>
      var id, amount, bidder := payload.value.itemId.s, payload.value.amount.n.value, BidderOf(payload.value, connectionId);
      forall k | IsFirstWithId(items, k, id) ::
        && (now >= items[k].endTime ==> r.reply == AuctionEnded(id, now, items[k].endTime))
        && (now < items[k].endTime && amount == items[k].currentBid && StrictEquals(items[k].highestBidder, bidder) ==>
              r.reply == DuplicateBid(id, amount, now))
        && (now < items[k].endTime && amount <= items[k].currentBid && !(amount == items[k].currentBid && StrictEquals(items[k].highestBidder, bidder)) ==>
              r.reply == BidTooLow(id, amount, items[k].currentBid, items[k].highestBidder, now))
        && (now < items[k].endTime && amount > items[k].currentBid ==>
              && r.items == items[k := items[k].(currentBid := amount, highestBidder := bidder)]
              && r.reply == BidAccepted(id, amount, bidder, now, items[k].endTime))
  {
    if !ValidPayload(payload) then BidResult(items, InvalidPayload)
    else
      var id, amount := payload.value.itemId.s, payload.value.amount.n.value;
      var bidder := BidderOf(payload.value, connectionId);
      match FindIndex(items, id)
      case None => BidResult(items, ItemNotFound(id))
      case Some(k) =>
        var item := items[k];
        match Decide(item, amount, bidder, now)
        case Closed => BidResult(items, AuctionEnded(id, now, item.endTime))
        case Duplicate => BidResult(items, DuplicateBid(id, amount, now))
        case TooLow => BidResult(items, BidTooLow(id, amount, item.currentBid, item.highestBidder, now))
        case Accept =>
          BidResult(items[k := item.(currentBid := amount, highestBidder := bidder)],
                    BidAccepted(id, amount, bidder, now, item.endTime))
  }

  /** An accepted bid records, on its lot and in the broadcast, the connection
      id when the payload has no `bidderId`, and the payload's value (even
      `null`) otherwise; it never records `undefined`. */
  lemma AcceptedBidRecordsBidder(items: seq<Item>, payload: Option<BidPayload>, connectionId: string, now: int)
    ensures var r := PlaceBid(items, payload, connectionId, now);
      r.reply.BidAccepted? ==>
        && (payload.value.bidderId.Undefined? ==> r.reply.highestBidder == Str(connectionId))
        && (!payload.value.bidderId.Undefined? ==> r.reply.highestBidder == payload.value.bidderId)
        && !r.reply.highestBidder.Undefined?
        && forall k | IsFirstWithId(items, k, payload.value.itemId.s) :: r.items[k].highestBidder == r.reply.highestBidder
  {
    var r := PlaceBid(items, payload, connectionId, now);
    if r.reply.BidAccepted? {
      match FindIndex(items, payload.value.itemId.s)
      case None =>
      case Some(k) =>
        forall j | IsFirstWithId(items, j, payload.value.itemId.s) ensures j == k {
          FirstIsUnique(items, j, k, payload.value.itemId.s);
        }
    }
  }

  /** A bid is accepted exactly when it names an existing lot that is still
      open and it strictly beats the current bid; the accepted amount then
      becomes the lot's current bid, so the current bid strictly increases and
      stays at least the starting price. */
  lemma AcceptedExactlyWhenOpenAndHigher(items: seq<Item>, payload: Option<BidPayload>, connectionId: string, now: int)
    ensures var r := PlaceBid(items, payload, connectionId, now);
      r.reply.BidAccepted? <==>
        && ValidPayload(payload)
        && exists k | IsFirstWithId(items, k, payload.value.itemId.s) ::
             now < items[k].endTime && payload.value.amount.n.value > items[k].currentBid
    ensures var r := PlaceBid(items, payload, connectionId, now);
      r.reply.BidAccepted? ==>
        forall k | IsFirstWithId(items, k, payload.value.itemId.s) ::
          && r.items[k].currentBid > items[k].currentBid
          && (items[k].currentBid >= items[k].startingPrice ==> r.items[k].currentBid > r.items[k].startingPrice)
          && r.items[k].endTime == items[k].endTime
          && r.items[k].breakStartTime == items[k].breakStartTime
  {
    if ValidPayload(payload) {
      var id := payload.value.itemId.s;
      match FindIndex(items, id)
      case None =>
      case Some(k) =>
        forall j | IsFirstWithId(items, j, id) ensures j == k {
          FirstIsUnique(items, j, k, id);
        }
    }
  }
}

=== FILE: countdown.dfy ===
/**
 * `formatCountdown` of frontend/src/lib/time.js: remaining milliseconds
 * rendered as `m:ss`, with "Ended" once time is up and a dash placeholder
 * when there is no number to show.
 */
module Countdown {
  import opened Options
  import opened JsValues

  const EndedLabel: string := "Ended"

  /** The intended placeholder: one EM DASH, U+2014. */
  const Placeholder: string := "\U{2014}"

  /** The placeholder the source file actually holds: the three characters
      U+00E2 U+20AC U+201D, which is the UTF-8 encoding of the em dash read
      back as Windows-1252. */
  const PlaceholderAsWritten: string := "\U{00E2}\U{20AC}\U{201D}"

  predicate IsDigit(c: char)
  {
    '0' <= c <= '9'
  }

  predicate AllDigits(s: string)
  {
    forall i | 0 <= i < |s| :: IsDigit(s[i])
  }

  function DigitChar(d: int): (c: char)
    requires 0 <= d < 10
    ensures IsDigit(c) && c as int - '0' as int == d
  {
    ('0' as int + d) as char
  }

  /** `String(n)` for a whole number: its decimal digits, no leading zero. */
  function Decimal(n: nat): (s: string)
    ensures 1 <= |s| && AllDigits(s)
    ensures n < 10 <==> |s| == 1
    ensures n < 100 ==> |s| <= 2
    ensures n >= 10 ==> s[0] != '0'
    decreases n
  {
    if n < 10 then [DigitChar(n)] else Decimal(n / 10) + [DigitChar(n % 10)]
  }

  /** The number a string of decimal digits denotes. */
  function DigitsValue(s: string): nat
    requires AllDigits(s)
    decreases |s|
  {
    if |s| == 0 then 0
    else
      DigitsValue(s[..|s| - 1]) * 10 + (s[|s| - 1] as int - '0' as int)
  }

  lemma {:induction false} DecimalRoundTrip(n: nat)
    ensures DigitsValue(Decimal(n)) == n
    decreases n
  {
    var s := Decimal(n);
    if n < 10 {
      assert s[..0] == [];
    } else {
      assert s[..|s| - 1] == Decimal(n / 10);
      DecimalRoundTrip(n / 10);
    }
  }

  /** `s.padStart(width, fill)`. */
  function PadStart(s: string, width: nat, fill: char): (r: string)
    ensures |r| == if |s| >= width then |s| else width
    ensures r[|r| - |s|..] == s
    ensures forall i | 0 <= i < |r| - |s| :: r[i] == fill
  {
    if |s| >= width then s else seq(width - |s|, _ => fill) + s
  }

  /** `Math.ceil(x)`. */
  function Ceil(x: real): (c: int)
    ensures c as real - 1.0 < x <= c as real
  {
    -((-x).Floor)
  }

  /** The minutes and seconds fields of a countdown. */
  datatype Clock = Clock(minutes: nat, seconds: nat)

  /** The clock shown for `ms > 0`: the fewest whole seconds that cover the
      remaining time, split into minutes and seconds. */
  function ClockOf(ms: real): (c: Clock)
    requires ms > 0.0
    ensures c.seconds < 60
    ensures ((c.minutes * 60 + c.seconds - 1) as real) * 1000.0 < ms <= ((c.minutes * 60 + c.seconds) as real) * 1000.0
  {
    var totalSeconds := Ceil(ms / 1000.0);
    Clock(totalSeconds / 60, totalSeconds % 60)
  }

  /** The input is not a number, or is NaN. */
  predicate ShowsPlaceholder(ms: JsValue)
  {
    !ms.Num? || ms.n.NaN?
  }

  /** Countdown text: one or more digits, a colon, then two digits. */
  predicate IsClockText(s: string)
  {
    |s| >= 4 && s[|s| - 3] == ':' && AllDigits(s[..|s| - 3]) && AllDigits(s[|s| - 2..])
  }

  /** `String(seconds).padStart(2, '0')` for a value below 100: a leading
      zero before a single digit. */
  function SecondsField(n: nat): (s: string)
    requires n < 100
    ensures |s| == 2 && AllDigits(s)
  {
    if n < 10 then ['0', DigitChar(n)] else Decimal(n)
  }

  /** `SecondsField` is the source's `padStart` applied to `String(n)`. */
  lemma SecondsFieldIsPadded(n: nat)
    requires n < 100
    ensures SecondsField(n) == PadStart(Decimal(n), 2, '0')
  {
    if n < 10 {
      var pad := PadStart(Decimal(n), 2, '0');
      assert Decimal(n) == [DigitChar(n)];
      assert pad[1..] == [DigitChar(n)] && pad[0] == '0';
    }
  }

  /** The value of a two-digit string. */
  lemma PairValue(a: char, b: char)
    requires IsDigit(a) && IsDigit(b)
    ensures DigitsValue([a, b]) == (a as int - '0' as int) * 10 + (b as int - '0' as int)
  {
    assert [a][..0] == [];
    assert DigitsValue([a]) == a as int - '0' as int;
    assert [a, b][..1] == [a];
  }

  /** The padded seconds field reads back as the seconds value. */
  lemma SecondsFieldRoundTrip(n: nat)
    requires n < 100
    ensures DigitsValue(SecondsField(n)) == n
  {
    if n < 10 {
      PairValue('0', DigitChar(n));
    } else {
      DecimalRoundTrip(n);
    }
  }

  /** `${minutes}:${String(seconds).padStart(2, '0')}`. */
  function FormatClock(c: Clock): (r: string)
    requires c.seconds < 60
    ensures IsClockText(r)
    ensures |r| == 4 || r[0] != '0'
  {
    var m, sec := Decimal(c.minutes), SecondsField(c.seconds);
    ColonSplits(m, sec);
    m + ":" + sec
  }

  /** Where the colon sits in `m + ":" + sec` when `sec` has two characters. */
  lemma ColonSplits(m: string, sec: string)
    requires |sec| == 2
    ensures var s := m + ":" + sec;
      |s| == |m| + 3 && s[..|s| - 3] == m && s[|s| - 3] == ':' && s[|s| - 2..] == sec
  {
  }

  /** `formatCountdown`, with the intended placeholder. */
  function FormatCountdown(ms: JsValue): (r: string)
    ensures ShowsPlaceholder(ms) ==> r == Placeholder
    ensures ms == Num(NegInfinity) || (ms.Num? && ms.n.Finite? && ms.n.value <= 0.0) ==> r == EndedLabel
    ensures ms == Num(PosInfinity) ==> r == "Infinity:NaN"
    ensures ms.Num? && ms.n.Finite? && ms.n.value > 0.0 ==> IsClockText(r) && r != EndedLabel
    ensures ms.Num? && ms.n.Finite? && ms.n.value > 0.0 ==> |r| == 4 || r[0] != '0'
  {
    match ms
    case Num(n) =>
      match n {
        case NaN => Placeholder
        case NegInfinity => EndedLabel
        // ceil and floor keep Infinity, and `Infinity % 60` is NaN
        case PosInfinity => "Infinity" + ":" + PadStart("NaN", 2, '0')
        case Finite(v) =>
          if v <= 0.0 then EndedLabel
          else
            FormatClock(ClockOf(v))
      }
    case _ => Placeholder
  }

  /** Any positive remainder up to one second still shows one second left,
      never `0:00`. */
  lemma LastSecondShowsOne(v: real)
    requires 0.0 < v <= 1000.0
    ensures FormatCountdown(Num(Finite(v))) == "0:01"
  {
    assert ClockOf(v) == Clock(0, 1);
    assert Decimal(0) == "0" && Decimal(1) == "1";
  }

  /** Reads an `m:ss` countdown back into its fields. */
  function ParseClock(s: string): Option<Clock>
  {
    if IsClockText(s) then Some(Clock(DigitsValue(s[..|s| - 3]), DigitsValue(s[|s| - 2..])))
    else None
  }

  /** A positive countdown can be read back: its fields are exactly the
      minutes and seconds of `ClockOf`, the seconds field being two digits. */
  lemma FormatCountdownRoundTrip(v: real)
    requires v > 0.0
    ensures ParseClock(FormatCountdown(Num(Finite(v)))) == Some(ClockOf(v))
  {
    var c := ClockOf(v);
    var m, sec := Decimal(c.minutes), SecondsField(c.seconds);
    var s := m + ":" + sec;
    assert FormatCountdown(Num(Finite(v))) == FormatClock(c) == s;
    ColonSplits(m, sec);
    DecimalRoundTrip(c.minutes);
    SecondsFieldRoundTrip(c.seconds);
  }

  /** `formatCountdown` as the source file has it: the same function, except
      that the placeholder is the mis-decoded three-character string. */
  function FormatCountdownAsWritten(ms: JsValue): (r: string)
    ensures r == FormatCountdown(ms) <==> !ShowsPlaceholder(ms)
    ensures ShowsPlaceholder(ms) ==> r == PlaceholderAsWritten && |r| == 3 && |FormatCountdown(ms)| == 1
  {
    assert |PlaceholderAsWritten| == 3;
    if ShowsPlaceholder(ms) then PlaceholderAsWritten else FormatCountdown(ms)
  }

  /** The three UTF-8 bytes of a character from U+0800 to U+FFFF. */
  function Utf8ThreeBytes(c: char): (b: seq<int>)
    requires 0x800 <= c as int < 0x10000
    ensures |b| == 3 && forall i | 0 <= i < 3 :: 0 <= b[i] < 256
  {
    [0xE0 + c as int / 0x1000, 0x80 + (c as int / 0x40) % 0x40, 0x80 + c as int % 0x40]
  }

  /** Windows-1252 characters for the bytes 0x80 to 0x9F; the five bytes the
      code page leaves undefined map to the control character of that value. */
  const Cp1252High: seq<char> := [
    '\U{20AC}', '\U{0081}', '\U{201A}', '\U{0192}', '\U{201E}', '\U{2026}', '\U{2020}', '\U{2021}',
    '\U{02C6}', '\U{2030}', '\U{0160}', '\U{2039}', '\U{0152}', '\U{008D}', '\U{017D}', '\U{008F}',
    '\U{0090}', '\U{2018}', '\U{2019}', '\U{201C}', '\U{201D}', '\U{2022}', '\U{2013}', '\U{2014}',
    '\U{02DC}', '\U{2122}', '\U{0161}', '\U{203A}', '\U{0153}', '\U{009D}', '\U{017E}', '\U{0178}']

  /** The character Windows-1252 shows for a byte; outside 0x80-0x9F it
      agrees with Latin-1. */
  function Cp1252(b: int): char
    requires 0 <= b < 256
  {
    if 0x80 <= b < 0xA0 then Cp1252High[b - 0x80] else b as char
  }

  /** The source's placeholder is the em dash's UTF-8 bytes shown as
      Windows-1252, so a missing countdown renders as three odd characters
      instead of one dash. */
  lemma PlaceholderIsMisdecoded()
    ensures var bytes := Utf8ThreeBytes(Placeholder[0]);
      PlaceholderAsWritten == [Cp1252(bytes[0]), Cp1252(bytes[1]), Cp1252(bytes[2])]
    ensures FormatCountdownAsWritten(Num(NaN)) != FormatCountdown(Num(NaN))
    ensures |FormatCountdownAsWritten(Undefined)| == 3 && |FormatCountdown(Undefined)| == 1
  {
    var bytes := Utf8ThreeBytes(Placeholder[0]);
    assert bytes == [0xE2, 0x80, 0x94];
  }
}

=== FILE: js_values.dfy ===
/**
 * The slice of JavaScript's value space that the auction engine inspects:
 * payload fields arrive as arbitrary JSON-ish values and are checked with
 * `typeof`, `Number.isFinite` and `===`.
 */
module JsValues {

  /** A JavaScript number. Finite values are exact reals: the engine only
      compares and copies them, so rounding never enters. */
  datatype JsNumber = Finite(value: real) | NaN | PosInfinity | NegInfinity

  /** `Object` stands for any object or array. */
  datatype JsValue =
    | Undefined
    | Null
    | Bool(b: bool)
    | Num(n: JsNumber)
    | Str(s: string)
    | Object

  /** `a === b`. NaN is unequal to everything, itself included; two object
      values are never identical here because every inbound payload is
      deserialised into fresh objects. */
  predicate StrictEquals(a: JsValue, b: JsValue)
  {
    match (a, b)
    case (Num(x), Num(y)) => x != NaN && x == y
    case (Object, Object) => false
    case _ => a == b
  }
}

=== FILE: lifecycle.dfy ===
/**
 * The lifecycle sweep of backend/server.js: once per tick every lot is
 * checked against the server clock; an ended lot starts its break, a lot
 * whose break has run `BreakDuration` starts a fresh round, and each
 * transition emits one `UPDATE_BID` event.
 */
module Lifecycle {
  import opened Options
  import opened JsValues
  import opened AuctionStore

  /** The two `UPDATE_BID` payloads the sweep broadcasts. `Restarted` always
      carries `breakStartTime: null`. */
  datatype Event =
    | BreakStarted(itemId: string, serverTime: int, breakStartTime: int)
    | Restarted(itemId: string, currentBid: real, highestBidder: JsValue, endTime: int, serverTime: int)

  datatype ItemStep = ItemStep(item: Item, event: Option<Event>)

  datatype SweepResult = SweepResult(items: seq<Item>, events: seq<Event>)

  /** The break has lasted long enough for a fresh round. */
  predicate BreakElapsed(item: Item, now: int)
  {
    OnBreak(item) && now - item.breakStartTime.value >= BreakDuration
  }

  /** The transition of one lot in one sweep, on its own fields and `now`
      alone: start a break, else restart, else nothing. */
  function Step(item: Item, now: int): (r: ItemStep)
    ensures r.item.id == item.id && r.item.title == item.title && r.item.startingPrice == item.startingPrice
    ensures r.event == Some(BreakStarted(item.id, now, now)) <==> now >= item.endTime && !OnBreak(item)
    ensures r.event.Some? && r.event.value.BreakStarted? ==> r.item == item.(breakStartTime := Some(now))
    ensures r.event.Some? && r.event.value.Restarted? <==> BreakElapsed(item, now)
    ensures r.event.Some? && r.event.value.Restarted? ==>
      && r.item == FreshRound(item, now)
      && r.item.endTime > now
      && r.event.value == Restarted(item.id, item.startingPrice, Null, r.item.endTime, now)
    ensures r.event.None? <==> (now < item.endTime && !OnBreak(item)) || (OnBreak(item) && !BreakElapsed(item, now))
    ensures r.event.None? ==> r.item == item
    ensures r.event.Some? ==> r.event.value.itemId == item.id
  {
    if now >= item.endTime && !OnBreak(item) then
      ItemStep(item.(breakStartTime := Some(now)), Some(BreakStarted(item.id, now, now)))
    else if BreakElapsed(item, now) then
      var renewed := FreshRound(item, now);
      ItemStep(renewed, Some(Restarted(item.id, renewed.currentBid, renewed.highestBidder, renewed.endTime, now)))
    else
      ItemStep(item, None)
  }

  function EventsOf(e: Option<Event>): seq<Event>
  {
    match e
    case None => []
    case Some(ev) => [ev]
  }

  /** `Step` applied to every lot, events in table order: the per-lot
      reference for the sweep. */
  function StepAll(items: seq<Item>, now: int): (r: SweepResult)
    ensures |r.items| == |items|
    ensures forall k | 0 <= k < |items| :: r.items[k] == Step(items[k], now).item
    ensures |r.events| <= |items|
    decreases |items|
  {
    if |items| == 0 then SweepResult([], [])
    else
      var s := Step(items[0], now);
      var rest := StepAll(items[1..], now);
      SweepResult([s.item] + rest.items, EventsOf(s.event) + rest.events)
  }

  /** The events of the per-lot sweep are exactly the lots' own `Step` events:
      each one comes from some lot, and every lot's event is there. */
  lemma {:induction false} StepAllEmitsStepEvents(items: seq<Item>, now: int)
    ensures forall e | e in StepAll(items, now).events ::
      exists k | 0 <= k < |items| :: Step(items[k], now).event == Some(e)
    ensures forall k | 0 <= k < |items| && Step(items[k], now).event.Some? ::
      Step(items[k], now).event.value in StepAll(items, now).events
    decreases |items|
  {
    if |items| > 0 {
      var s := Step(items[0], now);
      var rest := StepAll(items[1..], now);
      StepAllEmitsStepEvents(items[1..], now);
      assert StepAll(items, now).events == EventsOf(s.event) + rest.events;
      forall e | e in StepAll(items, now).events
        ensures exists k | 0 <= k < |items| :: Step(items[k], now).event == Some(e)
      {
        if e in EventsOf(s.event) {
          assert Step(items[0], now).event == Some(e);
        } else {
          var j :| 0 <= j < |items[1..]| && Step(items[1..][j], now).event == Some(e);
          assert Step(items[j + 1], now).event == Some(e);
        }
      }
      forall k | 0 <= k < |items| && Step(items[k], now).event.Some?
        ensures Step(items[k], now).event.value in StepAll(items, now).events
      {
        if k > 0 {
          assert items[1..][k - 1] == items[k];
        }
      }
    }
  }

  /** No element occurs twice. */
  predicate NoRepeats<T(==)>(s: seq<T>)
  {
    forall i, j | 0 <= i < j < |s| :: s[i] != s[j]
  }

  /** With distinct ids, no event of the per-lot sweep appears twice: each
      transitioning lot is announced exactly once per tick. */
  lemma {:induction false} StepAllEventsDistinct(items: seq<Item>, now: int)
    requires UniqueIds(items)
    ensures NoRepeats(StepAll(items, now).events)
    decreases |items|
  {
    if |items| > 0 {
      var head := EventsOf(Step(items[0], now).event);
      var rest := StepAll(items[1..], now);
      var events := StepAll(items, now).events;
      assert events == head + rest.events;
      assert UniqueIds(items[1..]);
      StepAllEventsDistinct(items[1..], now);
      assert NoRepeats(rest.events);
      StepAllEmitsStepEvents(items[1..], now);
      forall e | e in rest.events
        ensures e.itemId != items[0].id
      {
        var k :| 0 <= k < |items[1..]| && Step(items[1..][k], now).event == Some(e);
        assert items[1..][k] == items[k + 1];
        assert e.itemId == items[k + 1].id;
        assert items[0].id != items[k + 1].id;
      }
      forall e | e in head
        ensures e !in rest.events
      {
        assert e.itemId == items[0].id;
      }
      DisjointNoRepeats(head, rest.events);
    }
  }

  /** Two repeat-free sequences with no element in common concatenate to a
      repeat-free sequence. */
  lemma DisjointNoRepeats<T>(a: seq<T>, b: seq<T>)
    requires NoRepeats(a) && NoRepeats(b)
    requires forall x | x in a :: x !in b
    ensures NoRepeats(a + b)
  {
    forall i, j | 0 <= i < j < |a + b|
      ensures (a + b)[i] != (a + b)[j]
    {
      if j < |a| {
        assert (a + b)[i] == a[i] && (a + b)[j] == a[j];
      } else if i >= |a| {
        assert (a + b)[i] == b[i - |a|] && (a + b)[j] == b[j - |a|];
      } else {
        assert (a + b)[i] == a[i] && (a + b)[j] == b[j - |a|];
        assert a[i] in a;
      }
    }
  }

  /** The `forEach` body from index `k` on, as written: each iteration reads
      the current item at its index and mutates the table through the store's
      id-based operations. */
  function SweepFrom(items: seq<Item>, k: nat, now: int): (r: SweepResult)
    requires k <= |items|
    ensures |r.items| == |items|
    ensures forall j | 0 <= j < |items| :: r.items[j].id == items[j].id
    decreases |items| - k
  {
    if k == |items| then SweepResult(items, [])
    else
      var item := items[k];
      if now >= item.endTime && !OnBreak(item) then
        var rest := SweepFrom(SetItemBreakStartTime(items, item.id, now), k + 1, now);
        SweepResult(rest.items, [BreakStarted(item.id, now, now)] + rest.events)
      else if BreakElapsed(item, now) then
        var reset := ResetItem(items, item.id, now);
        var renewed := reset.item.value;
        var rest := SweepFrom(reset.items, k + 1, now);
        SweepResult(rest.items, [Restarted(renewed.id, renewed.currentBid, renewed.highestBidder, renewed.endTime, now)] + rest.events)
      else
        SweepFrom(items, k + 1, now)
  }

  /** One tick of the sweep at server time `now`. */
  function Sweep(items: seq<Item>, now: int): SweepResult
  {
    SweepFrom(items, 0, now)
  }

  /** With distinct ids, iteration `k` of the sweep acts on `items[k]` only,
      exactly as `Step` does. */
  lemma SweepIterationIsStep(items: seq<Item>, k: nat, now: int)
    requires UniqueIds(items) && k < |items|
    ensures UniqueIds(items[k := Step(items[k], now).item])
    ensures SweepFrom(items, k, now) ==
      var rest := SweepFrom(items[k := Step(items[k], now).item], k + 1, now);
      SweepResult(rest.items, EventsOf(Step(items[k], now).event) + rest.events)
  {
    var item := items[k];
    var s := Step(item, now);
    var next := items[k := s.item];
    FirstWithIdIsItself(items, k);
    if now >= item.endTime && !OnBreak(item) {
      assert SetItemBreakStartTime(items, item.id, now) == next;
    } else if BreakElapsed(item, now) {
      var reset := ResetItem(items, item.id, now);
      assert reset.items == next;
      assert reset.item == Some(s.item);
    } else {
      assert next == items;
    }
  }

  /** The sweep from index `k` leaves the prefix alone and runs `Step` on each
      later lot. */
  lemma {:induction false} SweepFromIsPerItem(items: seq<Item>, k: nat, now: int)
    requires UniqueIds(items) && k <= |items|
    ensures SweepFrom(items, k, now) ==
      SweepResult(items[..k] + StepAll(items[k..], now).items, StepAll(items[k..], now).events)
    decreases |items| - k
  {
    if k == |items| {
      assert items[..k] == items;
      assert items[k..] == [];
    } else {
      var s := Step(items[k], now);
      var next := items[k := s.item];
      var rest := SweepFrom(next, k + 1, now);
      var tail := StepAll(items[k + 1..], now);
      assert UniqueIds(next) && SweepFrom(items, k, now) == SweepResult(rest.items, EventsOf(s.event) + rest.events) by {
        SweepIterationIsStep(items, k, now);
      }
      assert rest == SweepResult(next[..k + 1] + StepAll(next[k + 1..], now).items, StepAll(next[k + 1..], now).events) by {
        SweepFromIsPerItem(next, k + 1, now);
      }
      UpdateSplits(items, k, s.item);
      ConcatAssociates(items[..k], [s.item], tail.items);
      assert StepAll(items[k..], now) == SweepResult([s.item] + tail.items, EventsOf(s.event) + tail.events) by {
        StepAllUnfolds(items[k..], now);
        UpdateSplits(items, k, s.item);
      }
    }
  }

  lemma StepAllUnfolds(items: seq<Item>, now: int)
    requires |items| > 0
    ensures StepAll(items, now) ==
      SweepResult([Step(items[0], now).item] + StepAll(items[1..], now).items,
                  EventsOf(Step(items[0], now).event) + StepAll(items[1..], now).events)
  {
  }

  lemma UpdateSplits<T>(s: seq<T>, k: nat, x: T)
    requires k < |s|
    ensures s[k := x][k + 1..] == s[k + 1..] == s[k..][1..]
    ensures s[k := x][..k + 1] == s[..k] + [x]
  {
  }

  lemma ConcatAssociates<T>(a: seq<T>, b: seq<T>, c: seq<T>)
    ensures (a + b) + c == a + (b + c)
  {
  }

  /** Lots are independent: with distinct ids, a sweep is exactly `Step`
      applied to each lot on its own, and changes no lot through another. */
  lemma SweepIsPerItem(items: seq<Item>, now: int)
    requires UniqueIds(items)
    ensures Sweep(items, now) == StepAll(items, now)
    ensures |Sweep(items, now).items| == |items|
    ensures forall k | 0 <= k < |items| :: Sweep(items, now).items[k] == Step(items[k], now).item
  {
    SweepFromIsPerItem(items, 0, now);
    assert items[..0] == [];
    assert items[0..] == items;
  }

  /** The full cycle of one lot: it ends at `endTime`, a sweep at `t1` starts
      its break, and a sweep once the break has lasted `BreakDuration` starts
      a fresh round that is open for bids again. */
  lemma BreakThenRestart(item: Item, t1: int, t2: int)
    requires !OnBreak(item) && item.endTime <= t1 && t1 != 0
    requires t2 >= t1 + BreakDuration
    ensures Step(item, t1).item.breakStartTime == Some(t1)
    ensures Step(Step(item, t1).item, t2).item == FreshRound(item, t2)
    ensures Step(Step(item, t1).item, t2).item.endTime > t2
    ensures !OnBreak(Step(Step(item, t1).item, t2).item)
  {
  }
}

=== FILE: options.dfy ===
/** The optional value used for JavaScript's `undefined`/`null` results. */
module Options {

  datatype Option<+T> = None | Some(value: T)
}
